=== FILE: README.md ===
# Prompt-Base backend: the deterministic fallback path

Prompt-Base is a personal prompt manager. Its backend asks Gemini for three things:
- a one-line summary and three suggested categories for a new prompt;
- a title and tags when the prompt is saved.

This project models the parts of that backend that do not depend on Gemini:

- **Fence stripping** (`LlmJson.JsonText`). This is the string handed to the JSON parser. The reply is stripped, a leading "```json" and a trailing "```" are cut off, and the rest is stripped again.
- **Keyword fallback** (`Fallback.FallbackSuggestion`). The summary is cut to 50 characters plus "...". The categories come from the first entry of an ordered keyword table whose keyword occurs in the lower-cased content. The default is ["一般", "テキスト生成", "その他"].
- **Fallback title and tags** (`Fallback.FallbackTitleTags`). The title is cut to 30 characters plus "...". The tags are empty.
- **Category hint** (`Generate.CategoryHint`). This is the sentence listing the existing categories, joined with ", ". A fixed sentence is used when there are none.
- **Dispatch** (`Generate.SummaryAndCategory`, `Generate.TitleAndTags`). Gemini's parsed answer is used when there is one, and the fallback otherwise.

The Python string primitives involved are modelled in module `Text`:
- `str.strip()`, using Python's exact whitespace set;
- `startswith` and `endswith`;
- `in` and `find`;
- the ASCII part of `str.lower()`;
- `", ".join`.

`Text.Split` (Python's `split`) is not called by the backend. It is the inverse used only to state the join round trip (`Text.SplitJoin`).

The summary equals the content not only when the content has at most 50 characters. A 53-character content that ends in "..." also maps to itself (`Fallback.AbbreviateFixedPoint`). Such a summary cannot be told apart from a truncated one.

Strings are `seq<char>` over Unicode scalar values, so for every string without lone surrogates `|s|` is Python's `len(s)`. Dict iteration order in Python is insertion order, so the keyword table is an ordered sequence of `KeywordRule`s.

## Model

| member | source | states |
|---|---|---|
| Text.Strip | backend/main.py:72 | the result has no whitespace at either end and sits inside the input with only whitespace around it |
| Text.StripUnique | backend/main.py:72 | those two facts pin the stripped string down uniquely |
| Text.StripIdempotent | backend/main.py:77 | stripping an already stripped reply changes nothing |
| Text.StartsWith | backend/main.py:73 | true exactly when the prefix is no longer than the string and agrees with it character by character from the front |
| Text.EndsWith | backend/main.py:75 | true exactly when the suffix is no longer than the string and agrees with it character by character at the back |
| Text.Contains | backend/main.py:95 | `keyword in text` holds exactly when the keyword occurs at some index of the text |
| Text.Find | backend/main.py:95 | the result is the first index where the keyword occurs, or None exactly when it occurs nowhere |
| Text.LowerChar | backend/main.py:93 | no ASCII capital is returned; A-Z move to a-z by the fixed ASCII offset; every other character is returned unchanged |
| Text.Lower | backend/main.py:93 | the lowered content has the same length as the content and contains no ASCII capital |
| Text.LowerMapsCapitals | backend/main.py:93 | each ASCII capital of the content becomes, at the same position, the lower-case letter 32 code points above it |
| Text.LowerChangesOnlyCapitals | backend/main.py:93 | a character of the content is changed by lowering exactly when it is an ASCII capital |
| Text.LowerIdempotent | backend/main.py:93 | lowering already lowered text changes nothing |
| Text.LowerKeepsContains | backend/main.py:93-95 | lower-casing the content keeps every occurrence, so a match of "Python" is a match of "python" |
| Text.CaselessContains | backend/main.py:93-95 | a keyword with no ASCII letters is found in the lower-cased content exactly when it is found in the content |
| Text.Join | backend/main.py:109 | joining nothing gives the empty string; otherwise the result starts with the first element and ends with the last; with JoinSingle and JoinAppend this fixes the join of every list |
| Text.JoinSingle | backend/main.py:109 | joining a one-element list gives that element, whatever the separator |
| Text.JoinAppend | backend/main.py:109 | joining a list with one more element gives the shorter list's join, then the separator, then that element, for every list and separator |
| Text.SplitJoin | backend/main.py:109 | splitting the ", "-joined list on ", " gives the list back, provided no element contains ", " |
| LlmJson.JsonText | backend/main.py:70-77 | the parser's input has no outer whitespace and is no longer than the stripped reply |
| LlmJson.AfterOpenFence | backend/main.py:73-74 | with a "```json" opener, putting "```json" back in front of the result gives the stripped reply; without one, the stripped reply is kept |
| LlmJson.FencedReply | backend/main.py:72-77 | a reply that strips to "```json" + body + "```" hands the parser strip(body) |
| LlmJson.UnfencedReply | backend/main.py:72-77 | a reply with neither fence hands the parser the stripped reply itself |
| LlmJson.CloseFenceOnly | backend/main.py:72-77 | a reply that strips to body + "```" without an opening "```json" hands the parser strip(body) |
| LlmJson.OpenFenceOnly | backend/main.py:72-77 | a reply that strips to "```json" + body, where body does not end in "```", hands the parser strip(body) |
| LlmJson.BareOpenFenceKept | backend/main.py:73-74 | a bare "```" opener is not removed and still starts the parser's input |
| LlmJson.NoOpenerCutsCloseOnly | backend/main.py:72-77 | without a "```json" opener the parser gets the stripped reply with only a trailing "```" cut off, then stripped again |
| LlmJson.CloseCutKeepsPrefix | backend/main.py:75-76 | cutting a trailing "```" keeps a leading "```" whenever the two fences do not overlap |
| Fallback.Abbreviate | backend/main.py:81 | content of at most `width` characters is kept whole; longer content becomes its first `width` characters followed by "...", `width` + 3 characters in all (used with 50 here and with 30 at line 137) |
| Fallback.AbbreviateFixedPoint | backend/main.py:81 | cutting leaves the content unchanged exactly when it has at most 50 characters, or has 53 and already ends in "..." |
| Fallback.AbbreviateIdempotent | backend/main.py:81 | cutting a cut summary again changes nothing |
| Fallback.FirstMatch | backend/main.py:94-97 | the result is a matching table index before which no entry matches, and None exactly when no entry matches |
| Fallback.FirstMatchIsFirst | backend/main.py:94-97 | a matching entry that all earlier entries miss is the one the search stops at |
| Fallback.FallbackCategories | backend/main.py:82-97 | exactly three categories, and the default list when no keyword occurs |
| Fallback.FallbackFirstMatch | backend/main.py:83-97 | when several keywords occur, the categories of the earliest one in table order are returned |
| Fallback.DefaultIffNoKeyword | backend/main.py:82-97 | the default list is returned exactly when no keyword of the table occurs |
| Fallback.KeywordTableSuggestsThree | backend/main.py:83-92 | every entry of the table suggests exactly three categories |
| Fallback.KeywordsLowercase | backend/main.py:83-95 | every keyword is non-empty and unchanged by lower-casing |
| Fallback.CodeKeywordWins | backend/main.py:84-97 | content containing "コード" gets ["プログラミング", "コード生成", "開発"], whatever else it contains |
| Fallback.PythonMatchedIgnoringCase | backend/main.py:85-97 | content containing "Python" but not "コード" gets ["プログラミング", "Python", "開発"] |
| Fallback.PythonEntryMatches | backend/main.py:85-95 | "Python" anywhere in the content matches the table's "python" entry after lower-casing |
| Fallback.CodeEntryMisses | backend/main.py:84-95 | content without "コード" does not match the table's first entry after lower-casing |
| Fallback.SecondEntryDecides | backend/main.py:84-97 | when the "コード" entry misses and the "python" entry matches, the search stops there and suggests ["プログラミング", "Python", "開発"] |
| Fallback.FallbackSuggestion | backend/main.py:79-98 | the categories are the keyword-chosen `FallbackCategories` of the content, three of them; the summary starts with the first 50 characters; it equals the content when that has at most 50 characters, and otherwise has 53 characters ending in "..." |
| Fallback.FallbackTitleTags | backend/main.py:137-138 | tags are empty; the title is the content when it has at most 30 characters, and otherwise has 33 characters: the first 30 of the content followed by "..." |
| Generate.CategoryHint | backend/main.py:109 | the "no categories yet" sentence exactly when the list is empty, and otherwise starts with the fixed prefix |
| Generate.HintSingle | backend/main.py:109 | one existing category gives the prefix followed by that category |
| Generate.HintAppend | backend/main.py:109 | one more existing category extends the hint by ", " and that category, whatever the category contains; with HintSingle this fixes the hint for every list |
| Generate.HintListsCategories | backend/main.py:109 | after the prefix, the hint splits back into the existing categories in their given order |
| Generate.SummaryAndCategory | backend/main.py:100-133 | no API key, a failed call, or a reply whose fence-stripped text does not parse each give exactly the keyword fallback, with its three categories and 50-character summary; a reply whose fence-stripped text parses gives that parsed value |
| Generate.NoKeyUsesFallback | backend/main.py:102-104 | without an API key the answer is the keyword fallback |
| Generate.FencedReplyParsed | backend/main.py:127-129 | a fenced Gemini reply is answered with the parse of its stripped body |
| Generate.TitleAndTags | backend/main.py:135-167 | no API key, a failed call, or a reply whose fence-stripped text does not parse each give exactly the fallback: the 30-character title and empty tags; a reply whose fence-stripped text parses gives the parsed title and tags |
| Generate.NoKeyTitleFallback | backend/main.py:137-142 | without an API key the stored title and tags are the fallback ones |
| Generate.FencedTitleParsed | backend/main.py:161-163 | a fenced Gemini reply is stored as the parse of its stripped body |

## Left out

- HTTP endpoints, CORS, `HTTPException` mapping (backend/main.py:13-22, 169-234): request plumbing with no logic of its own.
- SQLite schema, migrations, inserts and queries (backend/main.py:24-57, 175-181, 198-234): database I/O. The list of existing categories reaches `CategoryHint` as a parameter.
- The Gemini client and the prompt templates it is sent (backend/main.py:106-127, 144-161): a foreign, non-deterministic call. Its outcome is the `LlmReply` parameter.
- `json.loads` (backend/main.py:77): a library parser. It is the `parse` parameter; `None` stands for any exception, including a missing "title" or "tags" key.
- Generate.SummaryAndCategory: a parsed reply is taken as a `Suggestion`. The source returns whatever JSON object Gemini produced, with no check of its shape or of the number of categories.
- Generate.TitleAndTags: a parsed reply is taken as a `TitleTags` of two strings. The source returns `data["title"]` and `data["tags"]` as whatever JSON values they are (a number, null or a list), with no check of their type.
- Strings holding lone surrogates: a Python `str` can contain them (for example from a JSON body with "\ud800"), but a Dafny `char` is a Unicode scalar value. The model covers only strings without lone surrogates.
- The environment-variable lookup (backend/main.py:102, 140): an empty or missing `GEMINI_API_KEY` is the `NoApiKey` case. The `print` logging is left out.
- Text.Lower: only A-Z are lower-cased, not Python's full Unicode `str.lower()`. The table's keywords are lower-case ASCII or Japanese text. No non-ASCII character lower-cases into "p", "y", "t", "h", "o", "n" or into kana/kanji. So the match decision is the same for this table. This argument is not proved.
- The frontend (the suggest-then-confirm workflow and grouping by category) is not part of this model.

=== FILE: fallback.dfy ===
/**
 The backend's answer when Gemini cannot be used: a summary cut to 50
 characters, three categories picked by the first keyword of an ordered
 table found in the lower-cased content, and a title cut to 30 characters
 with empty tags.
 */
module Fallback {
  import opened Wrappers
  import opened Text

  /** What the categorize endpoint returns. */
  datatype Suggestion = Suggestion(summary: string, suggestedCategories: seq<string>)

  /** What the save endpoint stores next to the content. */
  datatype TitleTags = TitleTags(title: string, tags: string)

  /** One row of the keyword table: a keyword and the categories it suggests. */
  datatype KeywordRule = KeywordRule(keyword: string, categories: seq<string>)

  const Ellipsis: string := "..."
  const SummaryWidth: nat := 50
  const TitleWidth: nat := 30

  /** Suggested when no keyword of the table occurs in the content. */
  const DefaultCategories: seq<string> := ["一般", "テキスト生成", "その他"]

  /** The keyword table, in the insertion order that the search follows. */
  const KeywordTable: seq<KeywordRule> := [
    KeywordRule("コード", ["プログラミング", "コード生成", "開発"]),
    KeywordRule("python", ["プログラミング", "Python", "開発"]),
    KeywordRule("翻訳", ["翻訳", "言語", "ローカライゼーション"]),
    KeywordRule("要約", ["要約", "テキスト処理", "分析"]),
    KeywordRule("メール", ["ビジネス", "メール作成", "コミュニケーション"]),
    KeywordRule("ブログ", ["ライティング", "ブログ", "コンテンツ作成"]),
    KeywordRule("マーケティング", ["マーケティング", "広告", "ビジネス"]),
    KeywordRule("教育", ["教育", "学習", "チュートリアル"])
  ]

  /** `s` cut to `width` characters, with "..." appended when anything was cut. */
  function Abbreviate(s: string, width: nat): (r: string)
    ensures |r| == (if |s| <= width then |s| else width + |Ellipsis|)
    ensures |s| <= width ==> r == s
    ensures |s| > width ==> r[..width] == s[..width] && r[width..] == Ellipsis
  {
    if |s| > width then s[..width] + Ellipsis else s
  }

  /** Cutting leaves the string unchanged exactly when it is short enough, or
      when it is exactly three characters too long and already ends in "...". */
  lemma AbbreviateFixedPoint(s: string, width: nat)
    ensures Abbreviate(s, width) == s <==>
              (|s| <= width || (|s| == width + 3 && s[width..] == Ellipsis))
  {
    if |s| == width + 3 && s[width..] == Ellipsis {
      assert s == s[..width] + s[width..];
    }
  }

  /** Abbreviating an abbreviation changes nothing. */
  lemma AbbreviateIdempotent(s: string, width: nat)
    ensures Abbreviate(Abbreviate(s, width), width) == Abbreviate(s, width)
  {
    var r := Abbreviate(s, width);
    if |s| > width {
      AbbreviateFixedPoint(r, width);
    }
  }

  /** The keyword of `rule`, lower-cased, occurs in the lower-cased content. */
  predicate Matches(rule: KeywordRule, loweredContent: string) {
    Contains(loweredContent, Lower(rule.keyword))
  }

  /** Index of the first rule, in table order, whose keyword occurs in the text. */
  function FirstMatch(rules: seq<KeywordRule>, loweredContent: string): (r: Option<nat>)
    ensures r.Some? ==> r.value < |rules| && Matches(rules[r.value], loweredContent)
    ensures r.Some? ==> forall j :: 0 <= j < r.value ==> !Matches(rules[j], loweredContent)
    ensures r.None? <==> forall j :: 0 <= j < |rules| ==> !Matches(rules[j], loweredContent)
  {
    if |rules| == 0 then None
    else if Matches(rules[0], loweredContent) then Some(0)
    else
      match FirstMatch(rules[1..], loweredContent)
      case None => None
      case Some(k) =>
        assert forall j :: 1 <= j <= k ==> rules[j] == rules[1..][j - 1];
        Some(k + 1)
  }

  /** A match that every earlier rule misses is the one FirstMatch returns. */
  lemma {:induction false} FirstMatchIsFirst(rules: seq<KeywordRule>, loweredContent: string, i: nat)
    requires i < |rules| && Matches(rules[i], loweredContent)
    requires forall j :: 0 <= j < i ==> !Matches(rules[j], loweredContent)
    ensures FirstMatch(rules, loweredContent) == Some(i)
  {
    if i > 0 {
      assert forall j :: 0 <= j < i - 1 ==> rules[1..][j] == rules[j + 1];
      FirstMatchIsFirst(rules[1..], loweredContent, i - 1);
    }
  }

  /** Every rule of a table suggests exactly three categories. */
  predicate SuggestsThree(rules: seq<KeywordRule>) {
    forall j :: 0 <= j < |rules| ==> |rules[j].categories| == 3
  }

  lemma KeywordTableSuggestsThree()
    ensures SuggestsThree(KeywordTable)
  {
  }

  /** The three categories suggested for `content`. */
  function FallbackCategories(content: string): (cats: seq<string>)
    ensures |cats| == 3
    ensures (forall j :: 0 <= j < |KeywordTable| ==> !Matches(KeywordTable[j], Lower(content)))
              ==> cats == DefaultCategories
  {
    match FirstMatch(KeywordTable, Lower(content))
    case None => DefaultCategories
    case Some(i) => KeywordTableSuggestsThree(); KeywordTable[i].categories
  }

  /** When several keywords occur, the earliest in table order decides. */
  lemma FallbackFirstMatch(content: string, i: nat)
    requires i < |KeywordTable| && Matches(KeywordTable[i], Lower(content))
    requires forall j :: 0 <= j < i ==> !Matches(KeywordTable[j], Lower(content))
    ensures FallbackCategories(content) == KeywordTable[i].categories
  {
    FirstMatchIsFirst(KeywordTable, Lower(content), i);
  }

  /** The keyword-based suggestion used when Gemini is unavailable. */
  function FallbackSuggestion(content: string): (s: Suggestion)
    ensures s.suggestedCategories == FallbackCategories(content)
    ensures |s.suggestedCategories| == 3
    ensures StartsWith(s.summary, content[..if |content| <= SummaryWidth then |content| else SummaryWidth])
    ensures |content| <= SummaryWidth ==> s.summary == content
    ensures |content| > SummaryWidth ==> |s.summary| == SummaryWidth + 3 && EndsWith(s.summary, Ellipsis)
  {
    Suggestion(Abbreviate(content, SummaryWidth), FallbackCategories(content))
  }

  /** The title and tags stored when Gemini is unavailable. */
  function FallbackTitleTags(content: string): (t: TitleTags)
    ensures t.tags == ""
    ensures |content| <= TitleWidth ==> t.title == content
    ensures |content| > TitleWidth ==> |t.title| == TitleWidth + |Ellipsis|
    ensures |content| > TitleWidth ==> StartsWith(t.title, content[..TitleWidth]) && EndsWith(t.title, Ellipsis)
  {
    TitleTags(Abbreviate(content, TitleWidth), "")
  }

  /** No table entry suggests the default list, so the default is returned
      exactly when no keyword occurs. */
  lemma DefaultIffNoKeyword(content: string)
    ensures FallbackCategories(content) == DefaultCategories <==>
              forall j :: 0 <= j < |KeywordTable| ==> !Matches(KeywordTable[j], Lower(content))
  {
    assert forall j :: 0 <= j < |KeywordTable| ==> KeywordTable[j].categories[0] != DefaultCategories[0];
  }

  /** Every keyword of the table is already lower case and none is empty. */
  lemma KeywordsLowercase()
    ensures forall j :: 0 <= j < |KeywordTable| ==>
              Lower(KeywordTable[j].keyword) == KeywordTable[j].keyword && |KeywordTable[j].keyword| > 0
  {
  }

  /** "コード" is first in the table: its presence decides the categories,
      whatever other keywords the content holds. */
  lemma CodeKeywordWins(content: string)
    requires Contains(content, "コード")
    ensures FallbackCategories(content) == ["プログラミング", "コード生成", "開発"]
  {
    CaselessContains(content, "コード");
    FallbackFirstMatch(content, 0);
  }

  /** Both spellings lower-case to the table's "python" keyword. */
  lemma PythonKeywordLower()
    ensures Lower("Python") == "python"
    ensures Lower(KeywordTable[1].keyword) == "python"
  {
  }

  /** "python" is matched case-insensitively: "Python" in the content selects
      its entry unless the earlier "コード" entry matched. */
  lemma PythonMatchedIgnoringCase(content: string)
    requires Contains(content, "Python")
    requires !Contains(content, "コード")
    ensures FallbackCategories(content) == ["プログラミング", "Python", "開発"]
  {
    PythonEntryMatches(content);
    CodeEntryMisses(content);
    SecondEntryDecides(content);
  }

  /** When the first entry misses and the second matches, the second entry's
      categories are suggested. */
  lemma SecondEntryDecides(content: string)
    requires !Matches(KeywordTable[0], Lower(content))
    requires Matches(KeywordTable[1], Lower(content))
    ensures FallbackCategories(content) == ["プログラミング", "Python", "開発"]
  {
    var lc := Lower(content);
    var rest := KeywordTable[1..];
    assert rest[0] == KeywordTable[1];
    assert FirstMatch(rest, lc) == Some(0);
    assert FirstMatch(KeywordTable, lc) == Some(1);
  }

  /** "Python" in the content is a match for the table's "python" entry. */
  lemma PythonEntryMatches(content: string)
    requires Contains(content, "Python")
    ensures Matches(KeywordTable[1], Lower(content))
  {
    LowerKeepsContains(content, "Python");
    PythonKeywordLower();
  }

  /** Without "コード" in the content the table's first entry does not match. */
  lemma CodeEntryMisses(content: string)
    requires !Contains(content, "コード")
    ensures !Matches(KeywordTable[0], Lower(content))
  {
    CaselessContains(content, "コード");
  }
}

=== FILE: generate.dfy ===
/**
 How the backend chooses between a Gemini answer and the fallback, and the
 category hint it writes into the Gemini prompt. The Gemini call is a
 parameter (`LlmReply`), and so is the JSON parser (`parse`, which yields
 None where json.loads or a missing key would raise).
 */
module Generate {
  import opened Wrappers
  import opened Text
  import opened LlmJson
  import opened Fallback

  /** Outcome of asking Gemini: no API key configured, the call raised, or it replied. */
  datatype LlmReply = NoApiKey | CallFailed | Replied(text: string)

  const HintPrefix: string := "既存のカテゴリの例です: "
  const NoCategoriesHint: string := "まだカテゴリはありません。"

  /** The sentence that lists the categories already in use. */
  function CategoryHint(existing: seq<string>): (h: string)
    ensures h == NoCategoriesHint <==> existing == []
    ensures existing != [] ==> StartsWith(h, HintPrefix)
  {
    if existing != [] then
      var h := HintPrefix + Join(ListSep, existing);
      assert h[0] != NoCategoriesHint[0];
      h
    else NoCategoriesHint
  }

  /** The hint names every existing category, in order, and nothing else,
      provided no category name itself contains ", ". */
  lemma HintListsCategories(existing: seq<string>)
    requires existing != []
    requires forall k :: 0 <= k < |existing| ==> !Contains(existing[k], ListSep)
    ensures Split(CategoryHint(existing)[|HintPrefix|..], ListSep) == existing
  {
    assert CategoryHint(existing)[|HintPrefix|..] == Join(ListSep, existing);
    SplitJoin(existing);
  }

  /** A single category gives the prefix followed by that category alone. */
  lemma HintSingle(c: string)
    ensures CategoryHint([c]) == HintPrefix + c
  {
  }

  /** Adding a category to a non-empty list appends ", " and that category to
      the hint, whatever characters the category contains. */
  lemma HintAppend(existing: seq<string>, c: string)
    requires existing != []
    ensures CategoryHint(existing + [c]) == CategoryHint(existing) + ListSep + c
  {
    var joined := Join(ListSep, existing);
    JoinAppend(ListSep, existing, c);
    assert CategoryHint(existing + [c]) == HintPrefix + Join(ListSep, existing + [c]);
    assert CategoryHint(existing) == HintPrefix + joined;
    RegroupTail(HintPrefix, [], joined, ListSep, c);
    assert HintPrefix + [] == HintPrefix;
  }

  /** The JSON value the parser produced from a reply, if any. */
  function Parsed<T>(reply: LlmReply, parse: string -> Option<T>): Option<T> {
    if reply.Replied? then parse(JsonText(reply.text)) else None
  }

  /** The categorize endpoint's answer: Gemini's parsed reply, or the fallback. */
  function SummaryAndCategory(content: string, reply: LlmReply, parse: string -> Option<Suggestion>): (s: Suggestion)
    ensures reply == NoApiKey ==> s == FallbackSuggestion(content)
    ensures reply == CallFailed ==> s == FallbackSuggestion(content)
    ensures reply.Replied? && parse(JsonText(reply.text)).None? ==> s == FallbackSuggestion(content)
    ensures reply.Replied? && parse(JsonText(reply.text)).Some? ==> s == parse(JsonText(reply.text)).value
    ensures !(reply.Replied? && parse(JsonText(reply.text)).Some?) ==>
              |s.suggestedCategories| == 3 && s.summary == Abbreviate(content, SummaryWidth)
  {
    match Parsed(reply, parse)
    case Some(d) => d
    case None => FallbackSuggestion(content)
  }

  /** Without an API key the answer depends on the content alone. */
  lemma NoKeyUsesFallback(content: string, parse: string -> Option<Suggestion>)
    ensures SummaryAndCategory(content, NoApiKey, parse) == FallbackSuggestion(content)
  {
  }

  /** A reply fenced as a JSON code block is parsed from its stripped body. */
  lemma FencedReplyParsed(content: string, text: string, body: string, parse: string -> Option<Suggestion>)
    requires Strip(text) == JsonFenceOpen + body + FenceClose
    requires parse(Strip(body)).Some?
    ensures SummaryAndCategory(content, Replied(text), parse) == parse(Strip(body)).value
  {
    FencedReply(text, body);
  }

  /** The title and tags the save endpoint stores: Gemini's, or the fallback. */
  function TitleAndTags(content: string, reply: LlmReply, parse: string -> Option<TitleTags>): (t: TitleTags)
    ensures reply == NoApiKey ==> t == FallbackTitleTags(content)
    ensures reply == CallFailed ==> t == FallbackTitleTags(content)
    ensures reply.Replied? && parse(JsonText(reply.text)).None? ==> t == FallbackTitleTags(content)
    ensures reply.Replied? && parse(JsonText(reply.text)).Some? ==> t == parse(JsonText(reply.text)).value
    ensures !(reply.Replied? && parse(JsonText(reply.text)).Some?) ==>
              t.tags == "" && t.title == Abbreviate(content, TitleWidth)
  {
    match Parsed(reply, parse)
    case Some(d) => d
    case None => FallbackTitleTags(content)
  }

  /** Without an API key the stored title and tags depend on the content alone. */
  lemma NoKeyTitleFallback(content: string, parse: string -> Option<TitleTags>)
    ensures TitleAndTags(content, NoApiKey, parse) == FallbackTitleTags(content)
  {
  }

  /** A fenced title/tags reply is stored as the parse of its stripped body. */
  lemma FencedTitleParsed(content: string, text: string, body: string, parse: string -> Option<TitleTags>)
    requires Strip(text) == JsonFenceOpen + body + FenceClose
    requires parse(Strip(body)).Some?
    ensures TitleAndTags(content, Replied(text), parse) == parse(Strip(body)).value
  {
    FencedReply(text, body);
  }
}

=== FILE: llm_json.dfy ===
/**
 The text the backend hands to its JSON parser after a Gemini reply: the
 reply is stripped, a leading "```json" fence and a trailing "```" fence are
 cut off (each on its own test), and the rest is stripped again.
 */
module LlmJson {
  import opened Text

  /** Opening fence of a JSON code block, language tag included. */
  const JsonFenceOpen: string := "```json"

  /** Closing fence of a code block. */
  const FenceClose: string := "```"

  /** After the first strip and the prefix cut, before the suffix cut. */
  function AfterOpenFence(t: string): (r: string)
    ensures StartsWith(t, JsonFenceOpen) ==> t == JsonFenceOpen + r
    ensures !StartsWith(t, JsonFenceOpen) ==> r == t
  {
    if StartsWith(t, JsonFenceOpen) then t[|JsonFenceOpen|..] else t
  }

  /** `t` with one trailing "```" removed, if it has one. */
  function CutCloseFence(t: string): string {
    if EndsWith(t, FenceClose) then t[..|t| - |FenceClose|] else t
  }

  /** The string passed to the JSON parser for an LLM reply. */
  function JsonText(reply: string): (r: string)
    ensures HasNoOuterSpace(r)
    ensures |r| <= |Strip(reply)|
  {
    var a := AfterOpenFence(Strip(reply));
    var b := CutCloseFence(a);
    var r := Strip(b);
    assert |r| <= |b| by {
      var i :| StripsAt(b, r, i);
    }
    r
  }

  /** A reply fenced as a JSON code block yields exactly the stripped body. */
  lemma FencedReply(reply: string, body: string)
    requires Strip(reply) == JsonFenceOpen + body + FenceClose
    ensures JsonText(reply) == Strip(body)
  {
    var t := Strip(reply);
    assert StartsWith(t, JsonFenceOpen) by {
      assert t[..7] == JsonFenceOpen;
    }
    var a := t[7..];
    assert a == body + FenceClose;
    assert EndsWith(a, FenceClose) by {
      assert a[|a| - 3..] == FenceClose;
    }
    assert a[..|a| - 3] == body;
  }

  /** A reply with neither fence reaches the parser as the stripped reply. */
  lemma UnfencedReply(reply: string)
    requires !StartsWith(Strip(reply), JsonFenceOpen)
    requires !EndsWith(Strip(reply), FenceClose)
    ensures JsonText(reply) == Strip(reply)
  {
    StripIdempotent(reply);
  }

  /** A closing fence alone is still cut: the two tests are independent. */
  lemma CloseFenceOnly(reply: string, body: string)
    requires Strip(reply) == body + FenceClose
    requires !StartsWith(Strip(reply), JsonFenceOpen)
    ensures JsonText(reply) == Strip(body)
  {
    var t := Strip(reply);
    assert EndsWith(t, FenceClose) by {
      assert t[|t| - 3..] == FenceClose;
    }
    assert t[..|t| - 3] == body;
  }

  /** An opening fence without a closing one is cut on its own. */
  lemma OpenFenceOnly(reply: string, body: string)
    requires Strip(reply) == JsonFenceOpen + body
    requires !EndsWith(body, FenceClose)
    ensures JsonText(reply) == Strip(body)
  {
    var t := Strip(reply);
    assert StartsWith(t, JsonFenceOpen) by {
      assert t[..7] == JsonFenceOpen;
    }
    assert t[7..] == body;
  }

  /** Only the exact seven-character "```json" opener is recognised: a bare
      "```" opener (or "```JSON") survives into the parser's input. */
  lemma BareOpenFenceKept(reply: string)
    requires StartsWith(Strip(reply), FenceClose)
    requires !StartsWith(Strip(reply), JsonFenceOpen)
    requires |Strip(reply)| >= 6 || !EndsWith(Strip(reply), FenceClose)
    ensures StartsWith(JsonText(reply), FenceClose)
  {
    var t := Strip(reply);
    var b := CutCloseFence(t);
    NoOpenerCutsCloseOnly(reply);
    CloseCutKeepsPrefix(t);
    assert HasNoOuterSpace(FenceClose);
    StripKeepsPrefix(b, FenceClose);
  }

  /** Without a "```json" opener only the closing cut applies. */
  lemma NoOpenerCutsCloseOnly(reply: string)
    requires !StartsWith(Strip(reply), JsonFenceOpen)
    ensures JsonText(reply) == Strip(CutCloseFence(Strip(reply)))
  {
    assert AfterOpenFence(Strip(reply)) == Strip(reply);
  }

  /** Cutting a closing fence leaves a leading "```" in place, unless the
      opening and closing fences overlap. */
  lemma CloseCutKeepsPrefix(t: string)
    requires StartsWith(t, FenceClose)
    requires |t| >= 6 || !EndsWith(t, FenceClose)
    ensures 3 <= |CutCloseFence(t)| && CutCloseFence(t)[..3] == FenceClose
  {
    assert t[..3] == FenceClose;
  }
}

=== FILE: text.dfy ===
/**
 The string primitives of Python that the backend's fallback path relies on:
 str.strip() with no argument, str.startswith / str.endswith, the substring
 test `needle in hay`, str.lower() (ASCII part), ", ".join and its inverse.
 Strings are sequences of Unicode scalar values, so for strings without lone
 surrogates |s| is Python's len(s).
 */
module Text {
  import opened Wrappers

  /** Python's str.isspace(): the characters str.strip() removes by default. */
  predicate IsSpace(c: char) {
    || ('\t' <= c <= '\r')
    || ('\U{1C}' <= c <= '\U{1F}')
    || c == ' '
    || c == '\U{85}'
    || c == '\U{A0}'
    || c == '\U{1680}'
    || ('\U{2000}' <= c <= '\U{200A}')
    || c == '\U{2028}'
    || c == '\U{2029}'
    || c == '\U{202F}'
    || c == '\U{205F}'
    || c == '\U{3000}'
  }

  ghost predicate AllSpace(s: string) {
    forall k :: 0 <= k < |s| ==> IsSpace(s[k])
  }

  /** Neither the first nor the last character is whitespace. */
  predicate HasNoOuterSpace(s: string) {
    |s| == 0 || (!IsSpace(s[0]) && !IsSpace(s[|s| - 1]))
  }

  /** `r` sits at offset `i` of `s`, with only whitespace around it. */
  ghost predicate StripsAt(s: string, r: string, i: int) {
    && 0 <= i
    && i + |r| <= |s|
    && s[i..i + |r|] == r
    && AllSpace(s[..i])
    && AllSpace(s[i + |r|..])
  }

  /** Length of the longest all-whitespace prefix. */
  function LeadingSpaces(s: string): (n: nat)
    ensures n <= |s|
    ensures forall k :: 0 <= k < n ==> IsSpace(s[k])
    ensures n < |s| ==> !IsSpace(s[n])
  {
    if |s| > 0 && IsSpace(s[0]) then 1 + LeadingSpaces(s[1..]) else 0
  }

  /** Length of the longest all-whitespace suffix. */
  function TrailingSpaces(s: string): (n: nat)
    ensures n <= |s|
    ensures forall k :: |s| - n <= k < |s| ==> IsSpace(s[k])
    ensures n < |s| ==> !IsSpace(s[|s| - 1 - n])
  {
    if |s| > 0 && IsSpace(s[|s| - 1]) then 1 + TrailingSpaces(s[..|s| - 1]) else 0
  }

  /** Python's s.strip(). */
  function Strip(s: string): (r: string)
    ensures HasNoOuterSpace(r)
    ensures exists i :: StripsAt(s, r, i)
  {
    var i := LeadingSpaces(s);
    var t := s[i..];
    var r := t[..|t| - TrailingSpaces(t)];
    assert s[i..i + |r|] == r;
    assert s[i + |r|..] == t[|r|..];
    assert StripsAt(s, r, i);
    r
  }

  /** What StripsAt says about the characters around the kept part. */
  lemma StripsAtSpaces(s: string, r: string, i: int)
    requires StripsAt(s, r, i)
    ensures forall k :: 0 <= k < i ==> IsSpace(s[k])
    ensures forall k :: i + |r| <= k < |s| ==> IsSpace(s[k])
    ensures forall k :: 0 <= k < |r| ==> s[i + k] == r[k]
  {
    forall k | 0 <= k < i
      ensures IsSpace(s[k])
    {
      assert s[k] == s[..i][k];
    }
    forall k | i + |r| <= k < |s|
      ensures IsSpace(s[k])
    {
      assert s[k] == s[i + |r|..][k - i - |r|];
    }
    forall k | 0 <= k < |r|
      ensures s[i + k] == r[k]
    {
      assert s[i + k] == s[i..i + |r|][k];
    }
  }

  /** Whitespace-free ends plus whitespace-only surroundings determine the
      stripped string: Strip is the only function with its contract. */
  lemma StripUnique(s: string, r: string, i: int)
    requires StripsAt(s, r, i)
    requires HasNoOuterSpace(r)
    ensures Strip(s) == r
  {
    var r' := Strip(s);
    var i' :| StripsAt(s, r', i');
    StripsAtSpaces(s, r, i);
    StripsAtSpaces(s, r', i');
    if |r| > 0 {
      assert !IsSpace(s[i]) && !IsSpace(s[i + |r| - 1]);
    }
    if |r'| > 0 {
      assert !IsSpace(s[i']) && !IsSpace(s[i' + |r'| - 1]);
    }
    assert |r| == |r'|;
    if |r| > 0 {
      assert i == i';
    }
  }

  /** Stripping twice is stripping once. */
  lemma StripIdempotent(s: string)
    ensures Strip(Strip(s)) == Strip(s)
  {
    var r := Strip(s);
    assert r[0..|r|] == r && r[..0] == [] && r[|r|..] == [];
    StripUnique(r, r, 0);
  }

  /** Stripping keeps a prefix whose first and last characters are not whitespace. */
  lemma StripKeepsPrefix(s: string, p: string)
    requires |p| > 0 && |p| <= |s| && s[..|p|] == p
    requires HasNoOuterSpace(p)
    ensures |p| <= |Strip(s)| && Strip(s)[..|p|] == p
  {
    var r := Strip(s);
    var i :| StripsAt(s, r, i);
    StripsAtSpaces(s, r, i);
    assert s[0] == p[0] && s[|p| - 1] == p[|p| - 1];
    assert i == 0;
    assert |p| <= |r|;
    assert r[..|p|] == s[..|p|];
  }

  /** Python's s.startswith(p). */
  predicate StartsWith(s: string, p: string): (b: bool)
    ensures b <==> |p| <= |s| && forall k :: 0 <= k < |p| ==> s[k] == p[k]
  {
    |p| <= |s| && s[..|p|] == p
  }

  /** Python's s.endswith(p). */
  predicate EndsWith(s: string, p: string): (b: bool)
    ensures b <==> |p| <= |s| && forall k :: 0 <= k < |p| ==> s[|s| - |p| + k] == p[k]
  {
    |p| <= |s| && s[|s| - |p|..] == p
  }

  /** `needle` occurs in `hay` starting at index `i`. */
  ghost predicate OccursAt(hay: string, needle: string, i: int) {
    0 <= i && i + |needle| <= |hay| && hay[i..i + |needle|] == needle
  }

  lemma OccursShift(hay: string, needle: string)
    requires |hay| > 0
    ensures forall j :: 1 <= j ==> (OccursAt(hay, needle, j) <==> OccursAt(hay[1..], needle, j - 1))
  {
    forall j {:trigger OccursAt(hay, needle, j)} | 1 <= j
      ensures OccursAt(hay, needle, j) <==> OccursAt(hay[1..], needle, j - 1)
    {
      if j + |needle| <= |hay| {
        assert hay[1..][j - 1..j - 1 + |needle|] == hay[j..j + |needle|];
      }
    }
  }

  /** Python's hay.find(needle) as an option: the first index where
      `needle` occurs, or None. */
  function Find(hay: string, needle: string): (r: Option<nat>)
    ensures r.Some? ==> OccursAt(hay, needle, r.value)
    ensures r.Some? ==> forall j :: 0 <= j < r.value ==> !OccursAt(hay, needle, j)
    ensures r.None? ==> forall j :: !OccursAt(hay, needle, j)
    decreases |hay|
  {
    if |needle| > |hay| then None
    else if hay[..|needle|] == needle then Some(0)
    else
      OccursShift(hay, needle);
      match Find(hay[1..], needle)
      case None => None
      case Some(k) => Some(k + 1)
  }

  /** Python's `needle in hay`. */
  predicate Contains(hay: string, needle: string): (b: bool)
    ensures b <==> exists i :: OccursAt(hay, needle, i)
  {
    Find(hay, needle).Some?
  }

  /** The ASCII part of Python's str.lower() on one character. */
  function LowerChar(c: char): (r: char)
    ensures !('A' <= r <= 'Z')
    ensures 'A' <= c <= 'Z' ==> 'a' <= r <= 'z' && r as int - c as int == 'a' as int - 'A' as int
    ensures !('A' <= c <= 'Z') ==> r == c
  {
    if 'A' <= c <= 'Z' then (c as int + 32) as char else c
  }

  /** Python's s.lower(), restricted to ASCII case mapping. */
  function Lower(s: string): (r: string)
    ensures |r| == |s|
    ensures forall k :: 0 <= k < |r| ==> !('A' <= r[k] <= 'Z')
  {
    seq(|s|, k requires 0 <= k < |s| => LowerChar(s[k]))
  }

  /** Lowering changes exactly the ASCII capitals and keeps every other character. */
  lemma LowerChangesOnlyCapitals(s: string)
    ensures forall k :: 0 <= k < |s| ==> (Lower(s)[k] == s[k] <==> !('A' <= s[k] <= 'Z'))
  {
    forall k | 0 <= k < |s|
      ensures Lower(s)[k] == s[k] <==> !('A' <= s[k] <= 'Z')
    {
      assert Lower(s)[k] == LowerChar(s[k]);
    }
  }

  /** Each ASCII capital becomes its own small letter, 32 code points up. */
  lemma LowerMapsCapitals(s: string)
    ensures forall k :: 0 <= k < |s| && 'A' <= s[k] <= 'Z' ==>
              'a' <= Lower(s)[k] <= 'z' && Lower(s)[k] as int == s[k] as int + 32
  {
    forall k | 0 <= k < |s| && 'A' <= s[k] <= 'Z'
      ensures 'a' <= Lower(s)[k] <= 'z' && Lower(s)[k] as int == s[k] as int + 32
    {
      assert Lower(s)[k] == LowerChar(s[k]);
    }
  }

  /** Lowering twice is lowering once. */
  lemma LowerIdempotent(s: string)
    ensures Lower(Lower(s)) == Lower(s)
  {
    var r := Lower(s);
    assert forall k :: 0 <= k < |r| ==> Lower(r)[k] == r[k];
  }

  /** No ASCII letter in `p`, so lowering cannot produce or change any of its characters. */
  predicate Caseless(p: string) {
    forall k :: 0 <= k < |p| ==> !('A' <= p[k] <= 'Z') && !('a' <= p[k] <= 'z')
  }

  /** Lowering maps every occurrence of `p` to an occurrence of lower(p). */
  lemma LowerKeepsOccurrence(s: string, p: string, i: int)
    requires OccursAt(s, p, i)
    ensures OccursAt(Lower(s), Lower(p), i)
  {
    assert Lower(s)[i..i + |p|] == Lower(p) by {
      forall k | 0 <= k < |p|
        ensures Lower(s)[i..i + |p|][k] == Lower(p)[k]
      {
        assert s[i + k] == s[i..i + |p|][k];
      }
    }
  }

  /** Substring search is case-insensitive on the text being searched. */
  lemma LowerKeepsContains(s: string, p: string)
    requires Contains(s, p)
    ensures Contains(Lower(s), Lower(p))
  {
    var i := Find(s, p).value;
    LowerKeepsOccurrence(s, p, i);
  }

  /** Lowering only ever yields a non-letter from that same character. */
  lemma LowerCharReflects(c: char, d: char)
    requires !('a' <= d <= 'z')
    requires LowerChar(c) == d
    ensures c == d
  {
  }

  /** An occurrence of a caseless needle in the lowered text is an
      occurrence in the original text. */
  lemma CaselessReflectsOccurrence(s: string, p: string, i: int)
    requires Caseless(p)
    requires OccursAt(Lower(s), p, i)
    ensures OccursAt(s, p, i)
  {
    forall k | 0 <= k < |p|
      ensures s[i + k] == p[k]
    {
      assert Lower(s)[i..i + |p|][k] == p[k];
      LowerCharReflects(s[i + k], p[k]);
    }
    assert s[i..i + |p|] == p;
  }

  /** A caseless needle is found in the lowered text exactly when it is
      found in the original text. */
  lemma CaselessContains(s: string, p: string)
    requires Caseless(p)
    ensures Lower(p) == p
    ensures Contains(Lower(s), p) <==> Contains(s, p)
  {
    assert Lower(p) == p;
    if Contains(s, p) {
      LowerKeepsContains(s, p);
    }
    if Contains(Lower(s), p) {
      CaselessReflectsOccurrence(s, p, Find(Lower(s), p).value);
    }
  }

  /** Python's sep.join(xs). */
  function Join(sep: string, xs: seq<string>): (r: string)
    ensures |xs| == 0 ==> r == ""
    ensures |xs| > 0 ==> |xs[0]| <= |r| && r[..|xs[0]|] == xs[0]
    ensures |xs| > 0 ==> |xs[|xs| - 1]| <= |r| && r[|r| - |xs[|xs| - 1]|..] == xs[|xs| - 1]
  {
    if |xs| == 0 then ""
    else if |xs| == 1 then xs[0]
    else xs[0] + sep + Join(sep, xs[1..])
  }

  /** Regrouping a five-part concatenation. */
  lemma RegroupTail(a: string, b: string, c: string, d: string, e: string)
    ensures a + b + (c + d + e) == (a + b + c) + d + e
  {
  }

  /** Joining a single element gives that element, whatever the separator. */
  lemma JoinSingle(sep: string, x: string)
    ensures Join(sep, [x]) == x
  {
  }

  /** Join read from left to right: appending an element to a non-empty list
      appends the separator and that element to the joined string. Together
      with Join([]) == "" and JoinSingle this fixes Join on every list. */
  lemma {:induction false} JoinAppend(sep: string, xs: seq<string>, x: string)
    requires |xs| > 0
    ensures Join(sep, xs + [x]) == Join(sep, xs) + sep + x
  {
    var ys := xs + [x];
    assert ys[0] == xs[0];
    if |xs| == 1 {
      assert ys[1..] == [x];
      assert Join(sep, ys) == xs[0] + sep + x;
    } else {
      assert ys[1..] == xs[1..] + [x];
      JoinAppend(sep, xs[1..], x);
      RegroupTail(xs[0], sep, Join(sep, xs[1..]), sep, x);
      calc {
        Join(sep, ys);
        ys[0] + sep + Join(sep, ys[1..]);
        xs[0] + sep + (Join(sep, xs[1..]) + sep + x);
        (xs[0] + sep + Join(sep, xs[1..])) + sep + x;
        Join(sep, xs) + sep + x;
      }
    }
  }

  /** Python's s.split(sep) for a non-empty separator. */
  function Split(s: string, sep: string): (parts: seq<string>)
    requires |sep| > 0
    ensures |parts| >= 1
    decreases |s|
  {
    match Find(s, sep)
    case None => [s]
    case Some(i) => [s[..i]] + Split(s[i + |sep|..], sep)
  }

  /** The separator the backend joins category names with. */
  const ListSep: string := ", "

  /** The first ", " in x + ", " + rest is the one right after x, when x has none. */
  lemma FindSeparatorAfter(x: string, rest: string)
    requires !Contains(x, ListSep)
    ensures Find(x + ListSep + rest, ListSep) == Some(|x|)
  {
    var s := x + ListSep + rest;
    assert OccursAt(s, ListSep, |x|) by {
      assert s[|x|..|x| + 2] == ListSep;
    }
    forall j | 0 <= j < |x|
      ensures !OccursAt(s, ListSep, j)
    {
      if j + 2 <= |x| {
        assert s[j..j + 2] == x[j..j + 2];
        assert !OccursAt(x, ListSep, j);
      } else {
        assert s[j + 1] == ',';
        assert s[j..j + 2][1] == s[j + 1];
      }
    }
  }

  /** Splitting x + ", " + rest peels off x, when x has no ", ". */
  lemma SplitAfterSeparator(x: string, rest: string)
    requires !Contains(x, ListSep)
    ensures Split(x + ListSep + rest, ListSep) == [x] + Split(rest, ListSep)
  {
    var s := x + ListSep + rest;
    FindSeparatorAfter(x, rest);
    assert s[..|x|] == x;
    assert s[|x| + 2..] == rest;
  }

  /** Joining with ", " loses nothing: splitting the result on ", " gives
      back the list, as long as no element itself contains ", ". */
  lemma {:induction false} SplitJoin(xs: seq<string>)
    requires |xs| >= 1
    requires forall k :: 0 <= k < |xs| ==> !Contains(xs[k], ListSep)
    ensures Split(Join(ListSep, xs), ListSep) == xs
  {
    var x := xs[0];
    assert !Contains(x, ListSep);
    if |xs| == 1 {
      assert Join(ListSep, xs) == x;
    } else {
      var tail := xs[1..];
      var rest := Join(ListSep, tail);
      assert Join(ListSep, xs) == x + ListSep + rest;
      SplitAfterSeparator(x, rest);
      assert forall k :: 0 <= k < |tail| ==> tail[k] == xs[k + 1];
      SplitJoin(tail);
      assert xs == [x] + tail;
    }
  }
}

=== FILE: wrappers.dfy ===
/** Optional values, as returned by searches in this model. */
module Wrappers {

  datatype Option<+T> = None | Some(value: T)
}
